=== FILE: README.md ===
# shorturl-api in Dafny

A model of the core of the URL shortener: an Express server over a Postgres
table `urls`. It covers the short-code generator, the `urls` schema and the
three SQL statements the handlers run, and the request handlers:

- `POST /api/shorten` generates a six-character code and inserts the mapping;
- `GET /:shortCode` looks the code up, counts the click and redirects;
- `GET /api/stats` lists the table; `GET /api/stats/:shortCode` shows one row.

The model is functional. The table is an immutable value: a map from
`short_code` to its row, plus the last value of the SERIAL sequence behind `id`.
Every statement and every handler is a pure function from the table to a
result and the table afterwards. `Run` replays a sequence of requests one
after another.

Modules:

- `Results`: `Option` and `Result`.
- `ShortCode`: `generateShortCode`, with the six `Math.random` draws supplied
  as indices into the 62-character alphabet, and the alphabet's decoding.
- `Schema`: the `urls` table (`init-db.js`) and its constraints (`Valid`); the
  statements `SelectByCode`, `Insert` (with `RETURNING *`) and
  `IncrementClicks`; `Evolves`, the relation between a table and any later
  table.
- `Server`: the handlers, their responses, `Handle` and `Run`, and the
  properties of request sequences.
- `Allocation`: the generate-check-retry loop the shorten handler's comment
  describes, with the loop guard corrected (see Findings).

The handlers follow what the code does, including where it departs from its
own comments:

- The shorten handler's comment says "keep generating until we got a unique
  code" (server.js:45). Its loop, however, is `while (isUnique)` with
  `isUnique` starting false (server.js:43, 46), so the loop never runs. The
  first code goes straight to the INSERT. A taken code makes the UNIQUE
  constraint fail, which the handler answers with a 500. `Server.Shorten`
  models exactly that. The loop with the guard corrected is kept apart in
  `Allocation`.
- The handler treats every database error alike, as a 500 "Server error".

Database behaviour that the code relies on and the model writes out:

- `clicks` and the SERIAL `id` are Postgres INTEGERs (at most 2147483647).
- `clicks + 1` past that bound is an error. The redirect handler then answers
  500 and does not redirect.
- `nextval` is consumed even when the INSERT is then refused (sequences are
  not transactional). A refused insert therefore leaves the rows as they were,
  but not the sequence.
- `short_code` is `VARCHAR(10)` and UNIQUE. A longer value is an error,
  unless everything past the tenth character is spaces. Postgres then cuts
  the value to ten characters and stores that.

Inputs that come from outside the code are parameters:

- the environment variable `BASE_URL`, as an `Option<string>`; an unset or
  empty value falls back to `http://localhost:5000`;
- the random draws, as six indices per generated code;
- `CURRENT_TIMESTAMP`, as an opaque `Timestamp`;
- the JSON body's `url`, as an `Option<string>`. `None` is a missing or null
  field. The empty string is falsy, like a missing one.

## Model

| member | source | states |
|---|---|---|
| ShortCode.GenerateShortCode | server.js:21-28 | the code is six characters, each a letter or digit, and character i is the alphabet's character at draw i, whose alphabet index is draw i |
| ShortCode.Spell | server.js:23-26 | the loop appends one character per draw: the result has one character per draw, character i being the alphabet's character at draw i |
| ShortCode.CharacterAt | server.js:22 | every position of the 62-character alphabet holds a letter or digit whose index is that position |
| ShortCode.CharacterOf | server.js:22 | every letter and digit sits in the alphabet at the position its index gives |
| ShortCode.CharactersAreCodeChars | server.js:22 | the alphabet has 62 characters and indexing into it and taking a character's index are mutually inverse, so each letter and digit occurs exactly once |
| ShortCode.InAlphabetIffCodeChar | server.js:22 | a character occurs in the alphabet string if and only if it is an ASCII letter or digit |
| ShortCode.DecodeGenerate | server.js:24-26 | the draws can be read back from the generated code: decoding the code gives the draws |
| ShortCode.GenerateDecode | server.js:24-26 | every six-character letter-and-digit string is generated by some valid draws, namely its decoding: the generator reaches every such code |
| ShortCode.GenerateInjective | server.js:24-26 | two sequences of draws give the same code if and only if they are equal |
| Schema.EmptyValid | init-db.js:6-14 | the freshly created table meets the schema's constraints |
| Schema.SelectByCode | server.js:90-93 | on a valid table the lookup finds exactly the row whose `short_code` column equals the parameter, and nothing when no row carries it (the same query serves server.js:134-137) |
| Schema.StoredCode | init-db.js:10 | a code of at most ten characters is stored as it is; a longer one is refused if and only if a non-space character lies past the tenth, and is otherwise stored as its first ten characters, everything cut off being spaces |
| Schema.Insert | server.js:62-65 | the sequence advances by one on every insert it can serve, even a refused one, and an exhausted sequence refuses the insert and changes nothing; the insert succeeds if and only if the sequence is not exhausted, VARCHAR(10) can store the code and the stored code is not yet present; a refused insert leaves the rows unchanged; with the sequence fine the error is ValueTooLong when the code cannot be stored and the unique violation otherwise; a stored row has the given URL, the code as VARCHAR(10) stores it, 0 clicks, the current time and the next sequence value as id; the keys grow by that code and no other row changes |
| Schema.InsertEvolves | init-db.js:8-12 | on a valid table an insert keeps the constraints (unique codes under their own key, codes of at most 10 characters, distinct ids already handed out, clicks within INTEGER), only lets the table evolve, and gives the new row an id no stored row has |
| Schema.IncrementClicks | server.js:102-105 | the UPDATE changes no row for an unknown code, fails and changes nothing when `clicks + 1` leaves the INTEGER range, and otherwise raises that row's clicks by exactly one and touches nothing else; keys and sequence never change |
| Schema.IncrementEvolves | init-db.js:11 | on a valid table the increment keeps the constraints and only lets the table evolve |
| Server.BaseUrl | server.js:70 | the base URL is never empty: it is the variable's value when that is set and non-empty, and otherwise the default `http://localhost:5000` |
| Server.UniquenessLoop | server.js:43-57 | a loop entered with the flag false returns the first code unchanged without a lookup |
| Server.UniquenessLoopNeverExits | server.js:46-57 | entered with the flag true, the loop never terminates however many draws it is given, because no branch clears the flag |
| Server.Shorten | server.js:32-82 | the answer is a 400 if and only if the url is missing, null or empty, and the 400 leaves the table alone; with a truthy url and a sequence not yet exhausted the sequence advances by exactly one, whatever the INSERT then does, and an exhausted sequence leaves the table as it was; the handler answers 400, 500 or 200; a first code that is already stored is a 500 with no retry; a 500 leaves the rows unchanged; the answer is 200 if and only if the url is truthy, the first code is free and the sequence is not exhausted; a 200 carries the url, the code, `BASE_URL/code` and the creation time, and adds exactly the row (next id, url, code, 0 clicks, now) |
| Server.ShortenEvolves | server.js:62-65 | on a valid table shortening keeps the constraints, only lets the table evolve, and a new row's id differs from every stored id |
| Server.ShortenOnEmpty | server.js:62-77 | on the empty table a non-empty url is stored as the only row, with id 1 and no clicks, and the answer is its short link on the configured base URL |
| Server.Redirect | server.js:85-114 | a miss is a 404 that changes nothing; a hit redirects to the stored URL and raises that row's clicks by exactly one, leaving every other row alone; a count at the INTEGER maximum is a 500 with no redirect and no change |
| Server.RedirectEvolves | server.js:102-105 | on a valid table a redirect keeps the constraints and only lets the table evolve |
| Server.Stats | server.js:130-148 | the table is unchanged; the answer is a 404 exactly when the code is not stored, and otherwise a 200 with that row's url, code, clicks and creation time |
| Server.ListStats | server.js:117-127 | the table is unchanged; the 200 answer holds every stored row and only stored rows |
| Server.HandleEvolves | server.js:32-148 | every handler keeps a valid table valid and only lets it evolve |
| Server.Run | server.js:32-148 | requests handled one after another give one response each |
| Server.RunEvolves | init-db.js:7-13 | over any sequence of requests the table stays valid: no row disappears, id, url, code and creation time never change, clicks never decrease and the sequence never goes back |
| Server.RedirectTimesCounts | server.js:102-105 | redirecting a stored code n times, within the INTEGER range, raises its clicks by exactly n and changes no other row, key or the sequence |
| Server.RedirectTimesResponses | server.js:108 | each of those n redirects goes to the same stored URL |
| Server.RunRedirects | server.js:85-114 | running n redirect requests through the request dispatcher is redirecting the code n times |
| Server.RedirectsCount | server.js:99-108 | n redirect requests for a stored code, within the INTEGER range, each redirect to its URL, raise its count by exactly n and leave the other rows and the keys alone |
| Server.ShortenKeepsUrls | server.js:37-39 | shortening never stores an empty URL |
| Server.HandleKeepsUrls | server.js:37-39 | no handler stores an empty URL |
| Server.RunKeepsUrls | server.js:37-39 | however many requests are handled, no stored URL is empty |
| Server.TwoRedirects | server.js:99-108 | with one stored row, two redirect requests for its code answer two redirects to its URL and leave the row with two more clicks and the sequence as it was |
| Server.EndToEnd | server.js:32-114 | from the empty table, shortening a url and following the link twice answers with the short link on the default base URL, then redirects twice to the url, and leaves exactly one row, with id 1 and two clicks |
| Allocation.FirstFreeCode | server.js:45-57 | the corrected loop returns the first free candidate: the first code when it is not stored, otherwise the first redraw not stored, with every earlier redraw stored; it gives up if and only if every candidate is stored |
| Allocation.ShortenWithRetry | server.js:32-82 | with the corrected loop the answer is 400 if and only if the url is missing, null or empty, and otherwise 500 or 200; every 500 leaves the table, sequence included, as it was, and when every candidate is taken the answer is that 500; the answer is 200 if and only if the url is truthy, the sequence is not exhausted and some candidate is free; a 200 answers with that free code, the url, `BASE_URL/code` and the current time, stores exactly the row (next id, url, code, 0 clicks, now) under it, advances the sequence by one and changes no stored row |
| Allocation.ShortenWithRetryEvolves | server.js:62-65 | the corrected handler keeps a valid table valid and only lets it evolve |
| Allocation.CollisionAsWrittenAndCorrected | server.js:43-46 | when the first code is taken but a later draw is free, the handler as written answers 500 while the corrected one answers 200 with a new code |
| Allocation.ExampleCodes | server.js:21-28 | draws 0,0,0,0,0,0 spell "AAAAAA" and draws 1,0,0,0,0,0 spell "BAAAAA" |
| Allocation.CollisionExample | server.js:43-46 | with "AAAAAA" stored and draws giving "AAAAAA" then "BAAAAA", the handler as written answers 500 and the corrected one stores "BAAAAA" |

## Left out

- Express plumbing is not modelled: CORS and JSON middleware, the test route `/`, `app.listen`, `dotenv` and the `db` module's pool. It carries no logic of the core.
- Route matching is not modelled. Each request names its handler directly.
- `Math.random` is not modelled. Its six draws are an input: indices in [0, 62), which is what `Math.floor(Math.random() * 62)` yields.
- Server.Shorten: the body's `url` is a string, or absent or `null`. The falsy JSON values `0` and `false` get the same 400 as a missing url (server.js:37-39), so they are covered by `None`. Other truthy JSON values (non-zero numbers, `true`, objects, arrays) reach the driver, whose text conversion is not part of this model.
- Server.Shorten: strings are modelled as sequences of Unicode code points. A JavaScript string can also hold a lone UTF-16 surrogate (`{"url": "\ud800x"}`); the driver encodes it to UTF-8 as U+FFFD, so the source stores and answers a url different from the one it received. Such urls are not modelled.
- Server.Shorten: database failures other than the ones the `urls` schema causes are left out: connection loss, timeouts, and Postgres refusing a url containing the character U+0000, which no text column can hold. Each is a 500 in the source, where the model can answer 200.
- Server.Stats: the answer keeps the row's columns. The JSON field names (`original_url` and so on) are not modelled.
- Server.Stats: the catch that answers 500 (server.js:144-147) is not modelled. A failing SELECT, for example a code containing U+0000 (`GET /api/stats/%00`, which Postgres refuses as a text parameter), is a 500 in the source, where the model answers 404.
- Server.ListStats: the rows are answered as a set. The `ORDER BY created_at DESC` order is not modelled, because timestamps are opaque.
- Server.ListStats: the catch that answers 500 (server.js:123-126) is not modelled. The SELECT has no parameters, so only a connection failure reaches it.
- Server.Redirect: `Found` carries the stored url. The `Location` header Express sends is its `encodeurl` form (a space becomes `%20`, non-ASCII characters are percent-encoded), and under Express 4 a stored url equal to `back` redirects to the Referer, or to `/`, instead. How `res.redirect` builds the header is not modelled.
- Server.Redirect: a failure of the SELECT is not modelled; the INTEGER overflow of the UPDATE is. Connection loss, or a code containing U+0000, which Postgres refuses as a text parameter, is a 500 in the source, where the model answers 404.
- Concurrency is not modelled. Requests are handled one at a time, so the race between the lookup and the UPDATE of two interleaved requests is out of scope.
- Logging (`console.error`) and the bootstrap script's `process.exit` are not modelled.
- `created_at` is an opaque value supplied with each request.
- `clicks` is never NULL in the model. Only the default 0 and the handler's increment ever write it.
- Allocation.ShortenWithRetry: the corrected loop has no bound in the code. In the model it runs for as many redraws as are supplied, and running out of them is a 500.

## Findings

| source | as written | input that shows it | evidently intended | confidence | as-written member | corrected member |
|---|---|---|---|---|---|---|
| server.js:43-46 | `let isUnique = false; while (isUnique) { … }`: the loop never runs, so the first code is inserted unchecked and a collision is a 500 | a table holding "AAAAAA" and draws that give "AAAAAA" first and "BAAAAA" next | `while (!isUnique)`: keep drawing until a code is free, as the comment above the loop says | not executed | Allocation.CollisionAsWrittenAndCorrected | Allocation.ShortenWithRetry |

=== FILE: allocation.dfy ===
/** The allocator the shorten handler's comment describes ("keep generating
    until we got a unique code") but its loop does not run: look the
    candidate up, and draw a new one while it is taken. */
module Allocation {
  import opened Results
  import opened ShortCode
  import opened Schema
  import opened Server

  /** The loop with the guard `while (!isUnique)`: the first candidate not in
      the table. Candidate k + 1 comes from `redraws[k]`; `None` when every
      supplied candidate is taken. */
  function FirstFreeCode(rows: map<string, Row>, code: string, redraws: seq<Draws>): (r: Option<string>)
    ensures r.Some? ==> r.value !in rows
    ensures code !in rows ==> r == Some(code)
    ensures r.Some? && r.value != code ==>
      exists k :: 0 <= k < |redraws| && r.value == GenerateShortCode(redraws[k])
        && forall j :: 0 <= j < k ==> GenerateShortCode(redraws[j]) in rows
    ensures r.Some? ==> r.value == code || exists k :: 0 <= k < |redraws| && r.value == GenerateShortCode(redraws[k])
    ensures r.None? <==> code in rows && forall k :: 0 <= k < |redraws| ==> GenerateShortCode(redraws[k]) in rows
    decreases |redraws|
  {
    if code !in rows then Some(code)
    else if |redraws| == 0 then None
    else FirstFreeCode(rows, GenerateShortCode(redraws[0]), redraws[1..])
  }

  /** The shorten handler with the loop guard corrected; running out of
      supplied candidates is a server error. */
  function ShortenWithRetry(t: Table, url: Option<string>, draws: Draws, redraws: seq<Draws>, now: Timestamp, baseUrlEnv: Option<string>): (s: Step)
    ensures !Truthy(url) ==> s == Step(UrlRequired, t)
    ensures s.response == UrlRequired || s.response == ServerError || (s.response.Json? && s.response.status == 200)
    ensures s.response == UrlRequired <==> url == None || url == Some("")
    ensures s.response == ServerError ==> s.table == t
    ensures Truthy(url) && FirstFreeCode(t.rows, GenerateShortCode(draws), redraws).None? ==> s == Step(ServerError, t)
    ensures s.response == ServerError ==> s.table.rows == t.rows
    ensures s.response.Json? && s.response.status == 200 <==>
      && Truthy(url) && t.lastId < MaxInteger
      && FirstFreeCode(t.rows, GenerateShortCode(draws), redraws).Some?
    ensures s.response.Json? && s.response.status == 200 ==>
      && s.response.body.Shortened?
      && s.response.body.shortCode == FirstFreeCode(t.rows, GenerateShortCode(draws), redraws).value
      && s.response.body.shortCode !in t.rows
      && s.response.body.originalUrl == url.value
      && s.response.body.shortUrl == BaseUrl(baseUrlEnv) + "/" + s.response.body.shortCode
      && s.response.body.createdAt == now
      && s.table.lastId == t.lastId + 1
      && s.table.rows.Keys == t.rows.Keys + {s.response.body.shortCode}
      && s.table.rows[s.response.body.shortCode] == Row(t.lastId + 1, url.value, s.response.body.shortCode, 0, now)
      && (forall k :: k in t.rows ==> s.table.rows[k] == t.rows[k])
  {
    if !Truthy(url) then Step(UrlRequired, t)
    else
      match FirstFreeCode(t.rows, GenerateShortCode(draws), redraws)
      case None => Step(ServerError, t)
      case Some(shortCode) =>
        var x := Insert(t, url.value, shortCode, now);
        match x.result
        case Err(_) => Step(ServerError, x.table)
        case Ok(saved) =>
          Step(Json(200, Shortened(saved.originalUrl, BaseUrl(baseUrlEnv) + "/" + shortCode, saved.shortCode, saved.createdAt)), x.table)
  }

  /** The corrected handler keeps a valid table valid and only lets it evolve. */
  lemma ShortenWithRetryEvolves(t: Table, url: Option<string>, draws: Draws, redraws: seq<Draws>, now: Timestamp, env: Option<string>)
    requires Valid(t)
    ensures Valid(ShortenWithRetry(t, url, draws, redraws, now, env).table)
    ensures Evolves(t, ShortenWithRetry(t, url, draws, redraws, now, env).table)
  {
    var free := FirstFreeCode(t.rows, GenerateShortCode(draws), redraws);
    if Truthy(url) && free.Some? {
      InsertEvolves(t, url.value, free.value, now);
    } else {
      EvolvesReflexive(t);
    }
  }

  /** A first candidate that is already taken: as written the request fails
      even when a later draw would give a free code; with the corrected
      guard it succeeds with a code not yet in the table. */
  lemma CollisionAsWrittenAndCorrected(t: Table, url: Option<string>, draws: Draws, redraws: seq<Draws>, now: Timestamp, env: Option<string>)
    requires Truthy(url) && t.lastId < MaxInteger
    requires GenerateShortCode(draws) in t.rows
    requires exists k :: 0 <= k < |redraws| && GenerateShortCode(redraws[k]) !in t.rows
    ensures Shorten(t, url, draws, redraws, now, env).response == ServerError
    ensures Shorten(t, url, draws, redraws, now, env).table.rows == t.rows
    ensures ShortenWithRetry(t, url, draws, redraws, now, env).response.Json?
    ensures ShortenWithRetry(t, url, draws, redraws, now, env).response.status == 200
    ensures ShortenWithRetry(t, url, draws, redraws, now, env).response.body.shortCode !in t.rows
  {
  }

  /** The codes of the two draws the example uses. */
  lemma ExampleCodes()
    ensures GenerateShortCode([0, 0, 0, 0, 0, 0]) == "AAAAAA"
    ensures GenerateShortCode([1, 0, 0, 0, 0, 0]) == "BAAAAA"
  {
    GenerateDecode("AAAAAA");
    assert Decode("AAAAAA") == [0, 0, 0, 0, 0, 0];
    GenerateDecode("BAAAAA");
    assert Decode("BAAAAA") == [1, 0, 0, 0, 0, 0];
  }

  /** The concrete case: "AAAAAA" is stored; the first six draws are all 0
      (again "AAAAAA") and the next six give "BAAAAA", which is free. */
  lemma CollisionExample()
    ensures Shorten(Table(map["AAAAAA" := Row(1, "https://example.com/a", "AAAAAA", 0, Timestamp(0))], 1),
                    Some("https://example.com/b"), [0, 0, 0, 0, 0, 0], [[1, 0, 0, 0, 0, 0]], Timestamp(1), None).response
         == ServerError
    ensures ShortenWithRetry(Table(map["AAAAAA" := Row(1, "https://example.com/a", "AAAAAA", 0, Timestamp(0))], 1),
                             Some("https://example.com/b"), [0, 0, 0, 0, 0, 0], [[1, 0, 0, 0, 0, 0]], Timestamp(1), None).response
         == Json(200, Shortened("https://example.com/b", DefaultBaseUrl + "/" + "BAAAAA", "BAAAAA", Timestamp(1)))
  {
    ExampleCodes();
    var t := Table(map["AAAAAA" := Row(1, "https://example.com/a", "AAAAAA", 0, Timestamp(0))], 1);
    var redraws: seq<Draws> := [[1, 0, 0, 0, 0, 0]];
    assert FirstFreeCode(t.rows, "AAAAAA", redraws) == FirstFreeCode(t.rows, "BAAAAA", []);
  }
}

=== FILE: results.dfy ===
/** Failure-carrying values shared by the model: an optional value, and a
    result that is either a value or an error. */
module Results {

  /** A value that may be absent (a missing JSON field, a query with no row). */
  datatype Option<+T> = None | Some(value: T)

  /** The outcome of a statement that can fail. */
  datatype Result<+T, +E> = Ok(value: T) | Err(error: E)
}

=== FILE: schema.dfy ===
/** The `urls` table and the statements the handlers run against it. The
    table is a map from `short_code` to its row (the column is UNIQUE and
    NOT NULL), together with the last value handed out by the SERIAL
    sequence behind `id`. Every statement is a pure function from the table
    to its result and the table afterwards. */
module Schema {
  import opened Results

  /** Largest value of a Postgres INTEGER, the type of `clicks` and of the SERIAL `id`. */
  const MaxInteger: int := 0x7FFF_FFFF

  /** `short_code VARCHAR(10)`. */
  const MaxCodeLength: nat := 10

  /** The value `CURRENT_TIMESTAMP` gives `created_at`; only compared for equality. */
  datatype Timestamp = Timestamp(ticks: int)

  /** One row of `urls`. */
  datatype Row = Row(id: int, originalUrl: string, shortCode: string, clicks: int, createdAt: Timestamp)

  /** The table: rows keyed by `short_code`, and the SERIAL sequence's last value
      (0 before the first insert). */
  datatype Table = Table(rows: map<string, Row>, lastId: int)

  /** The errors the statements can raise. */
  datatype DbError =
    | SequenceExhausted  // nextval beyond the INTEGER range of the SERIAL sequence
    | ValueTooLong       // a `short_code` longer than VARCHAR(10)
    | UniqueViolation    // a `short_code` that is already present
    | OutOfRange         // `clicks + 1` beyond the INTEGER range

  /** What a statement returns, with the table after it ran. */
  datatype Exec<+T> = Exec(result: Result<T, DbError>, table: Table)

  /** The constraints of the schema, as far as the handlers can reach them:
      each row is stored under its own `short_code` (so codes are unique),
      codes fit VARCHAR(10), ids are distinct values the sequence has already
      handed out, and click counts are INTEGER values starting at 0. */
  ghost predicate Valid(t: Table) {
    && 0 <= t.lastId <= MaxInteger
    && (forall k :: k in t.rows ==> t.rows[k].shortCode == k && |k| <= MaxCodeLength)
    && (forall k :: k in t.rows ==> 1 <= t.rows[k].id <= t.lastId)
    && (forall k :: k in t.rows ==> 0 <= t.rows[k].clicks <= MaxInteger)
    && (forall k1, k2 :: k1 in t.rows && k2 in t.rows && k1 != k2 ==> t.rows[k1].id != t.rows[k2].id)
  }

  /** The table before the first request. */
  const Empty: Table := Table(map[], 0)

  lemma EmptyValid()
    ensures Valid(Empty)
  {
  }

  /** `SELECT ... FROM urls WHERE short_code = $1`, as a keyed lookup. On a
      valid table it is the scan the WHERE clause describes: it finds a row
      exactly when some row's `short_code` column equals the parameter, and
      then it finds that row. */
  function SelectByCode(t: Table, code: string): (r: Option<Row>)
    ensures r.None? <==> code !in t.rows
    ensures r.Some? ==> r.value == t.rows[code]
    ensures Valid(t) ==> (r.Some? <==> exists k :: k in t.rows && t.rows[k].shortCode == code)
    ensures Valid(t) ==> forall k :: k in t.rows && t.rows[k].shortCode == code ==> r == Some(t.rows[k])
  {
    if code in t.rows then Some(t.rows[code]) else None
  }

  /** What a `VARCHAR(10)` column stores for a value: the value itself when
      it fits; its first ten characters when everything past them is spaces
      (Postgres cuts those off silently); nothing when the value is too long
      otherwise, which is an error. */
  function StoredCode(code: string): (r: Option<string>)
    ensures |code| <= MaxCodeLength ==> r == Some(code)
    ensures r.Some? ==> |r.value| <= MaxCodeLength && r.value == code[..|r.value|]
    ensures |code| > MaxCodeLength && r.Some? ==> r.value == code[..MaxCodeLength]
    ensures r.Some? ==> forall i :: |r.value| <= i < |code| ==> code[i] == ' '
    ensures r.None? <==> exists i :: MaxCodeLength <= i < |code| && code[i] != ' '
  {
    if |code| <= MaxCodeLength then Some(code)
    else if forall i :: MaxCodeLength <= i < |code| ==> code[i] == ' ' then Some(code[..MaxCodeLength])
    else None
  }

  /** `INSERT INTO urls (original_url, short_code) VALUES ($1, $2) RETURNING *`.
      The defaults fill the rest: `id` from the sequence, `clicks` 0 and
      `created_at` the current time. The sequence value is drawn first and is
      not given back when the row is then refused (sequences are not
      transactional), so a refused insert leaves the rows but not `lastId`.
      The code is stored as its column type keeps it. */
  function Insert(t: Table, url: string, code: string, now: Timestamp): (x: Exec<Row>)
    ensures x.table.lastId >= t.lastId
    ensures t.lastId < MaxInteger ==> x.table.lastId == t.lastId + 1
    ensures t.lastId >= MaxInteger ==> x == Exec(Err(SequenceExhausted), t)
    ensures x.result.Ok? <==>
      t.lastId < MaxInteger && StoredCode(code).Some? && StoredCode(code).value !in t.rows
    ensures x.result.Err? ==> x.table.rows == t.rows
    ensures x.result.Err? && t.lastId < MaxInteger && StoredCode(code).None? ==> x.result.error == ValueTooLong
    ensures x.result.Err? && t.lastId < MaxInteger && StoredCode(code).Some? ==> x.result.error == UniqueViolation
    ensures x.result.Ok? ==>
      var row := x.result.value;
      && row.originalUrl == url && row.shortCode == StoredCode(code).value && row.clicks == 0 && row.createdAt == now
      && row.id == t.lastId + 1 == x.table.lastId
      && x.table.rows.Keys == t.rows.Keys + {row.shortCode}
      && x.table.rows[row.shortCode] == row
      && (forall k :: k in t.rows ==> x.table.rows[k] == t.rows[k])
  {
    var id := t.lastId + 1;
    if id > MaxInteger then Exec(Err(SequenceExhausted), t)
    else
      match StoredCode(code)
      case None => Exec(Err(ValueTooLong), t.(lastId := id))
      case Some(key) =>
        if key in t.rows then Exec(Err(UniqueViolation), t.(lastId := id))
        else
          var row := Row(id, url, key, 0, now);
          Exec(Ok(row), Table(t.rows[key := row], id))
  }

  /** `UPDATE urls SET clicks = clicks + 1 WHERE short_code = $1`, returning the
      number of rows it changed. An increment past the INTEGER range fails and
      changes nothing. */
  function IncrementClicks(t: Table, code: string): (x: Exec<nat>)
    ensures x.table.lastId == t.lastId && x.table.rows.Keys == t.rows.Keys
    ensures code !in t.rows ==> x == Exec(Ok(0), t)
    ensures code in t.rows && t.rows[code].clicks >= MaxInteger ==> x == Exec(Err(OutOfRange), t)
    ensures code in t.rows && t.rows[code].clicks < MaxInteger ==>
      && x.result == Ok(1)
      && x.table.rows[code] == t.rows[code].(clicks := t.rows[code].clicks + 1)
      && (forall k :: k in t.rows && k != code ==> x.table.rows[k] == t.rows[k])
  {
    if code !in t.rows then Exec(Ok(0), t)
    else
      var row := t.rows[code];
      if row.clicks + 1 > MaxInteger then Exec(Err(OutOfRange), t)
      else Exec(Ok(1), t.(rows := t.rows[code := row.(clicks := row.clicks + 1)]))
  }

  /** How a valid table may change over time: no row disappears; `id`,
      `original_url`, `short_code` and `created_at` are written once;
      `clicks` never decreases; the sequence never goes back. */
  ghost predicate Evolves(t: Table, t': Table) {
    && t.lastId <= t'.lastId
    && t.rows.Keys <= t'.rows.Keys
    && forall k :: k in t.rows ==>
         && t'.rows[k].id == t.rows[k].id
         && t'.rows[k].originalUrl == t.rows[k].originalUrl
         && t'.rows[k].shortCode == t.rows[k].shortCode
         && t'.rows[k].createdAt == t.rows[k].createdAt
         && t'.rows[k].clicks >= t.rows[k].clicks
  }

  lemma EvolvesReflexive(t: Table)
    ensures Evolves(t, t)
  {
  }

  lemma EvolvesTransitive(t1: Table, t2: Table, t3: Table)
    requires Evolves(t1, t2) && Evolves(t2, t3)
    ensures Evolves(t1, t3)
  {
  }

  /** On a valid table an insert keeps the schema's constraints and only lets
      the table evolve; the new row's id is one no stored row has. */
  lemma InsertEvolves(t: Table, url: string, code: string, now: Timestamp)
    requires Valid(t)
    ensures Valid(Insert(t, url, code, now).table)
    ensures Evolves(t, Insert(t, url, code, now).table)
    ensures Insert(t, url, code, now).result.Ok? ==>
      forall k :: k in t.rows ==> t.rows[k].id != Insert(t, url, code, now).result.value.id
  {
  }

  /** The increment keeps the table valid and only lets it evolve. */
  lemma IncrementEvolves(t: Table, code: string)
    requires Valid(t)
    ensures Valid(IncrementClicks(t, code).table)
    ensures Evolves(t, IncrementClicks(t, code).table)
  {
  }
}

=== FILE: server.dfy ===
/** The request handlers of the URL shortener, each a transition from the
    table to a response and the table afterwards. Routing, middleware and the
    database driver are not modelled; `BASE_URL` and the random draws are
    inputs. */
module Server {
  import opened Results
  import opened ShortCode
  import opened Schema

  /** The JSON bodies the handlers send. */
  datatype Body =
    | Shortened(originalUrl: string, shortUrl: string, shortCode: string, createdAt: Timestamp)
    | UrlStats(originalUrl: string, shortCode: string, clicks: int, createdAt: Timestamp)
    | AllRows(rows: set<Row>)
    | Problem(error: string)

  /** A JSON response with its status, or a redirect (status 302). */
  datatype Response = Json(status: nat, body: Body) | Found(location: string)

  /** The result of one handler: its response and the table afterwards. */
  datatype Step = Step(response: Response, table: Table)

  const DefaultBaseUrl: string := "http://localhost:5000"

  const UrlRequired: Response := Json(400, Problem("URL is required"))
  const NotFound: Response := Json(404, Problem("URL not found"))
  const ServerError: Response := Json(500, Problem("Server error"))

  /** `process.env.BASE_URL || 'http://localhost:5000'`: an unset or empty
      variable falls back to the default. */
  function BaseUrl(env: Option<string>): (r: string)
    ensures r != ""
    ensures r == DefaultBaseUrl || (env.Some? && r == env.value)
    ensures env.Some? && env.value != "" ==> r == env.value
  {
    if env.Some? && env.value != "" then env.value else DefaultBaseUrl
  }

  /** `!url` is false: the body's `url` is present and not the empty string
      (a missing field, `null` and `""` are all falsy). */
  predicate Truthy(url: Option<string>) {
    url.Some? && url.value != ""
  }

  /** The `while (isUnique)` loop of the shorten handler. Its body looks the
      code up and either sets the flag (code free) or draws a new code (code
      taken); neither branch ever clears the flag. Iteration k may use the
      draws `redraws[k]`; `None` means the loop was still running when they
      ran out. */
  function UniquenessLoop(rows: map<string, Row>, code: string, isUnique: bool, redraws: seq<Draws>): (r: Option<string>)
    ensures !isUnique ==> r == Some(code)
    decreases |redraws|
  {
    if !isUnique then Some(code)
    else if |redraws| == 0 then None
    else if code !in rows then UniquenessLoop(rows, code, true, redraws[1..])
    else UniquenessLoop(rows, GenerateShortCode(redraws[0]), true, redraws[1..])
  }

  /** Entered with the flag set, the loop would never stop, however many
      draws it is given: as written it can only be skipped or never left. */
  lemma {:induction false} UniquenessLoopNeverExits(rows: map<string, Row>, code: string, redraws: seq<Draws>)
    ensures UniquenessLoop(rows, code, true, redraws) == None
    decreases |redraws|
  {
    if |redraws| > 0 {
      if code !in rows {
        UniquenessLoopNeverExits(rows, code, redraws[1..]);
      } else {
        UniquenessLoopNeverExits(rows, GenerateShortCode(redraws[0]), redraws[1..]);
      }
    }
  }

  /** `POST /api/shorten`. A falsy `url` is refused. Otherwise one code is
      generated, the uniqueness loop is entered with its flag false (and so
      skipped), and the code goes straight to the INSERT; any database error
      becomes a 500. */
  function Shorten(t: Table, url: Option<string>, draws: Draws, redraws: seq<Draws>, now: Timestamp, baseUrlEnv: Option<string>): (s: Step)
    ensures !Truthy(url) ==> s == Step(UrlRequired, t)
    ensures s.response == UrlRequired || s.response == ServerError || (s.response.Json? && s.response.status == 200)
    ensures s.response == UrlRequired <==> url == None || url == Some("")
    ensures Truthy(url) && t.lastId < MaxInteger ==> s.table.lastId == t.lastId + 1
    ensures t.lastId >= MaxInteger ==> s.table == t
    ensures Truthy(url) && GenerateShortCode(draws) in t.rows ==> s.response == ServerError
    ensures s.response == ServerError ==> s.table.rows == t.rows
    ensures s.response.Json? && s.response.status == 200 <==>
      Truthy(url) && GenerateShortCode(draws) !in t.rows && t.lastId < MaxInteger
    ensures s.response.Json? && s.response.status == 200 ==>
      && s.response.body.Shortened?
      && s.response.body.shortCode == GenerateShortCode(draws)
      && s.response.body.originalUrl == url.value
      && s.response.body.shortUrl == BaseUrl(baseUrlEnv) + "/" + s.response.body.shortCode
      && s.response.body.createdAt == now
      && s.table.rows.Keys == t.rows.Keys + {GenerateShortCode(draws)}
      && s.table.rows[GenerateShortCode(draws)] == Row(t.lastId + 1, url.value, GenerateShortCode(draws), 0, now)
      && (forall k :: k in t.rows ==> s.table.rows[k] == t.rows[k])
  {
    if !Truthy(url) then Step(UrlRequired, t)
    else
      var shortCode := UniquenessLoop(t.rows, GenerateShortCode(draws), false, redraws).value;
      var x := Insert(t, url.value, shortCode, now);
      match x.result
      case Err(_) => Step(ServerError, x.table)
      case Ok(saved) =>
        Step(Json(200, Shortened(saved.originalUrl, BaseUrl(baseUrlEnv) + "/" + shortCode, saved.shortCode, saved.createdAt)), x.table)
  }

  /** On a valid table the shorten handler keeps the schema's constraints and
      only lets the table evolve; a new row gets an id no stored row has. */
  lemma ShortenEvolves(t: Table, url: Option<string>, draws: Draws, redraws: seq<Draws>, now: Timestamp, env: Option<string>)
    requires Valid(t)
    ensures Valid(Shorten(t, url, draws, redraws, now, env).table)
    ensures Evolves(t, Shorten(t, url, draws, redraws, now, env).table)
    ensures Shorten(t, url, draws, redraws, now, env).response.Json? && Shorten(t, url, draws, redraws, now, env).response.status == 200 ==>
      forall k :: k in t.rows ==> t.rows[k].id != Shorten(t, url, draws, redraws, now, env).table.rows[GenerateShortCode(draws)].id
  {
    if Truthy(url) {
      InsertEvolves(t, url.value, GenerateShortCode(draws), now);
    } else {
      EvolvesReflexive(t);
    }
  }

  /** `GET /:shortCode`. A miss is a 404. A hit increments the click count
      by code and redirects to the stored URL; if the increment fails, the
      handler answers 500 and does not redirect. */
  function Redirect(t: Table, code: string): (s: Step)
    ensures s.table.lastId == t.lastId && s.table.rows.Keys == t.rows.Keys
    ensures code !in t.rows ==> s == Step(NotFound, t)
    ensures code in t.rows && t.rows[code].clicks >= MaxInteger ==> s == Step(ServerError, t)
    ensures code in t.rows && t.rows[code].clicks < MaxInteger ==>
      && s.response == Found(t.rows[code].originalUrl)
      && s.table.rows[code] == t.rows[code].(clicks := t.rows[code].clicks + 1)
      && (forall k :: k in t.rows && k != code ==> s.table.rows[k] == t.rows[k])
  {
    match SelectByCode(t, code)
    case None => Step(NotFound, t)
    case Some(urlData) =>
      var x := IncrementClicks(t, code);
      match x.result
      case Err(_) => Step(ServerError, x.table)
      case Ok(_) => Step(Found(urlData.originalUrl), x.table)
  }

  /** A redirect keeps the table valid and only lets it evolve. */
  lemma RedirectEvolves(t: Table, code: string)
    requires Valid(t)
    ensures Valid(Redirect(t, code).table)
    ensures Evolves(t, Redirect(t, code).table)
  {
    IncrementEvolves(t, code);
  }

  /** `GET /api/stats/:shortCode`: the row's URL, code, clicks and creation
      time, or a 404; the table is left as it was. */
  function Stats(t: Table, code: string): (s: Step)
    ensures s.table == t
    ensures code !in t.rows <==> s.response == NotFound
    ensures code in t.rows ==>
      var row := t.rows[code];
      s.response == Json(200, UrlStats(row.originalUrl, row.shortCode, row.clicks, row.createdAt))
  {
    match SelectByCode(t, code)
    case None => Step(NotFound, t)
    case Some(row) => Step(Json(200, UrlStats(row.originalUrl, row.shortCode, row.clicks, row.createdAt)), t)
  }

  /** `GET /api/stats`: every row, and only rows of the table; the table is
      left as it was. The order (newest first) is not modelled. */
  function ListStats(t: Table): (s: Step)
    ensures s.table == t
    ensures s.response.Json? && s.response.status == 200 && s.response.body.AllRows?
    ensures forall k :: k in t.rows ==> t.rows[k] in s.response.body.rows
    ensures forall row :: row in s.response.body.rows ==> exists k :: k in t.rows && t.rows[k] == row
  {
    Step(Json(200, AllRows(t.rows.Values)), t)
  }

  /** One request to one of the handlers, with the inputs the environment supplies. */
  datatype Request =
    | ShortenRequest(url: Option<string>, draws: Draws, redraws: seq<Draws>, now: Timestamp, baseUrlEnv: Option<string>)
    | RedirectRequest(code: string)
    | StatsRequest(code: string)
    | ListRequest

  function Handle(t: Table, req: Request): Step {
    match req
    case ShortenRequest(url, draws, redraws, now, env) => Shorten(t, url, draws, redraws, now, env)
    case RedirectRequest(code) => Redirect(t, code)
    case StatsRequest(code) => Stats(t, code)
    case ListRequest => ListStats(t)
  }

  /** Every handler keeps a valid table valid and only lets it evolve. */
  lemma HandleEvolves(t: Table, req: Request)
    requires Valid(t)
    ensures Valid(Handle(t, req).table)
    ensures Evolves(t, Handle(t, req).table)
  {
    match req
    case ShortenRequest(url, draws, redraws, now, env) => ShortenEvolves(t, url, draws, redraws, now, env);
    case RedirectRequest(code) => RedirectEvolves(t, code);
    case StatsRequest(code) => EvolvesReflexive(t);
    case ListRequest => EvolvesReflexive(t);
  }

  /** The responses to a sequence of requests handled one after another, and the final table. */
  datatype Trace = Trace(responses: seq<Response>, table: Table)

  function Run(t: Table, reqs: seq<Request>): (r: Trace)
    ensures |r.responses| == |reqs|
    decreases |reqs|
  {
    if |reqs| == 0 then Trace([], t)
    else
      var s := Handle(t, reqs[0]);
      var rest := Run(s.table, reqs[1..]);
      Trace([s.response] + rest.responses, rest.table)
  }

  /** Over any sequence of requests the table stays valid and only evolves:
      rows are never removed, their codes, URLs, ids and creation times never
      change, and click counts never decrease. */
  lemma {:induction false} RunEvolves(t: Table, reqs: seq<Request>)
    requires Valid(t)
    ensures Valid(Run(t, reqs).table)
    ensures Evolves(t, Run(t, reqs).table)
    decreases |reqs|
  {
    if |reqs| == 0 {
      EvolvesReflexive(t);
    } else {
      var s := Handle(t, reqs[0]);
      HandleEvolves(t, reqs[0]);
      RunEvolves(s.table, reqs[1..]);
      EvolvesTransitive(t, s.table, Run(s.table, reqs[1..]).table);
    }
  }

  /** n redirects of a stored code, one after another. */
  function Redirects(code: string, n: nat): (reqs: seq<Request>)
    ensures |reqs| == n && forall i :: 0 <= i < n ==> reqs[i] == RedirectRequest(code)
  {
    seq(n, _ => RedirectRequest(code))
  }

  /** The same code redirected n times in a row: the responses and the final table. */
  function RedirectTimes(t: Table, code: string, n: nat): (r: Trace)
    ensures |r.responses| == n
    decreases n
  {
    if n == 0 then Trace([], t)
    else
      var s := Redirect(t, code);
      var rest := RedirectTimes(s.table, code, n - 1);
      Trace([s.response] + rest.responses, rest.table)
  }

  /** Every response is a redirect to the given URL. */
  predicate AllFound(responses: seq<Response>, url: string) {
    forall i :: 0 <= i < |responses| ==> responses[i] == Found(url)
  }

  lemma AllFoundCons(first: Response, rest: seq<Response>, url: string)
    requires first == Found(url) && AllFound(rest, url)
    ensures AllFound([first] + rest, url)
  {
  }

  /** Redirecting a stored code n times raises its count by exactly n (while
      it stays within INTEGER range) and touches no other row or column. */
  lemma {:induction false} RedirectTimesCounts(t: Table, code: string, n: nat)
    requires code in t.rows && t.rows[code].clicks + n <= MaxInteger
    ensures RedirectTimes(t, code, n).table.lastId == t.lastId
    ensures RedirectTimes(t, code, n).table.rows.Keys == t.rows.Keys
    ensures RedirectTimes(t, code, n).table.rows[code] == t.rows[code].(clicks := t.rows[code].clicks + n)
    ensures forall k :: k in t.rows && k != code ==> RedirectTimes(t, code, n).table.rows[k] == t.rows[k]
    decreases n
  {
    if n > 0 {
      var s := Redirect(t, code);
      RedirectTimesCounts(s.table, code, n - 1);
    }
  }

  /** Redirecting a stored code n times (within INTEGER range) redirects each
      time to the same stored URL. */
  lemma {:induction false} RedirectTimesResponses(t: Table, code: string, n: nat)
    requires code in t.rows && t.rows[code].clicks + n <= MaxInteger
    ensures AllFound(RedirectTimes(t, code, n).responses, t.rows[code].originalUrl)
    decreases n
  {
    if n > 0 {
      var s := Redirect(t, code);
      RedirectTimesResponses(s.table, code, n - 1);
      var rest := RedirectTimes(s.table, code, n - 1).responses;
      AllFoundCons(s.response, rest, t.rows[code].originalUrl);
      assert RedirectTimes(t, code, n).responses == [s.response] + rest;
    }
  }

  /** Running n redirect requests is redirecting the code n times. */
  lemma {:induction false} RunRedirects(t: Table, code: string, n: nat)
    ensures Run(t, Redirects(code, n)) == RedirectTimes(t, code, n)
    decreases n
  {
    if n > 0 {
      var reqs := Redirects(code, n);
      assert reqs[0] == RedirectRequest(code);
      assert reqs[1..] == Redirects(code, n - 1);
      RunRedirects(Redirect(t, code).table, code, n - 1);
    }
  }

  /** n redirect requests for a stored code raise its count by exactly n
      (while it stays within INTEGER range), each redirecting to the same
      stored URL, and touch no other row. */
  lemma RedirectsCount(t: Table, code: string, n: nat)
    requires code in t.rows && t.rows[code].clicks + n <= MaxInteger
    ensures AllFound(Run(t, Redirects(code, n)).responses, t.rows[code].originalUrl)
    ensures Run(t, Redirects(code, n)).table.rows.Keys == t.rows.Keys
    ensures Run(t, Redirects(code, n)).table.rows[code].clicks == t.rows[code].clicks + n
    ensures forall k :: k in t.rows && k != code ==> Run(t, Redirects(code, n)).table.rows[k] == t.rows[k]
  {
    RunRedirects(t, code, n);
    RedirectTimesCounts(t, code, n);
    RedirectTimesResponses(t, code, n);
  }

  /** No stored URL is empty: the handler refuses a falsy `url` before inserting. */
  ghost predicate NonEmptyUrls(t: Table) {
    forall k :: k in t.rows ==> t.rows[k].originalUrl != ""
  }

  lemma ShortenKeepsUrls(t: Table, url: Option<string>, draws: Draws, redraws: seq<Draws>, now: Timestamp, env: Option<string>)
    requires NonEmptyUrls(t)
    ensures NonEmptyUrls(Shorten(t, url, draws, redraws, now, env).table)
  {
    var s := Shorten(t, url, draws, redraws, now, env);
    if !(s.response.Json? && s.response.status == 200) {
      assert s.table.rows == t.rows;
    }
  }

  lemma HandleKeepsUrls(t: Table, req: Request)
    requires NonEmptyUrls(t)
    ensures NonEmptyUrls(Handle(t, req).table)
  {
    if req.ShortenRequest? {
      ShortenKeepsUrls(t, req.url, req.draws, req.redraws, req.now, req.baseUrlEnv);
    }
  }

  /** However many requests are handled, no stored URL is ever empty. */
  lemma {:induction false} RunKeepsUrls(t: Table, reqs: seq<Request>)
    requires NonEmptyUrls(t)
    ensures NonEmptyUrls(Run(t, reqs).table)
    decreases |reqs|
  {
    if |reqs| > 0 {
      HandleKeepsUrls(t, reqs[0]);
      RunKeepsUrls(Handle(t, reqs[0]).table, reqs[1..]);
    }
  }

  /** On an empty table, shortening a non-empty URL stores it as the row with
      id 1 and no clicks, and answers with its short link. */
  lemma ShortenOnEmpty(url: string, draws: Draws, redraws: seq<Draws>, now: Timestamp, env: Option<string>)
    requires url != ""
    ensures Shorten(Empty, Some(url), draws, redraws, now, env)
         == Step(Json(200, Shortened(url, BaseUrl(env) + "/" + GenerateShortCode(draws), GenerateShortCode(draws), now)),
                 Table(map[GenerateShortCode(draws) := Row(1, url, GenerateShortCode(draws), 0, now)], 1))
  {
  }

  /** Shorten a URL, then follow the short link twice. */
  function Session(url: string, draws: Draws, now: Timestamp): seq<Request> {
    [ShortenRequest(Some(url), draws, [], now, None)] + Redirects(GenerateShortCode(draws), 2)
  }

  /** Following the link of the only stored row twice redirects twice to its
      URL and leaves that row with two more clicks. */
  lemma TwoRedirects(t: Table, code: string)
    requires t.rows.Keys == {code} && t.rows[code].clicks + 2 <= MaxInteger
    ensures Run(t, Redirects(code, 2))
         == Trace([Found(t.rows[code].originalUrl), Found(t.rows[code].originalUrl)],
                  Table(map[code := t.rows[code].(clicks := t.rows[code].clicks + 2)], t.lastId))
  {
    RunRedirects(t, code, 2);
    var r := RedirectTimes(t, code, 2);
    RedirectTimesCounts(t, code, 2);
    assert r.table.rows == map[code := t.rows[code].(clicks := t.rows[code].clicks + 2)];
    RedirectTimesResponses(t, code, 2);
    assert r.responses == [Found(t.rows[code].originalUrl), Found(t.rows[code].originalUrl)];
  }

  /** From an empty table, the session answers with the short link on the
      default base URL and then redirects twice to the URL; afterwards the
      table holds that one row with two clicks. */
  lemma EndToEnd(url: string, draws: Draws, now: Timestamp)
    requires url != ""
    ensures Run(Empty, Session(url, draws, now)).responses
         == [Json(200, Shortened(url, DefaultBaseUrl + "/" + GenerateShortCode(draws), GenerateShortCode(draws), now)),
             Found(url), Found(url)]
    ensures Run(Empty, Session(url, draws, now)).table
         == Table(map[GenerateShortCode(draws) := Row(1, url, GenerateShortCode(draws), 2, now)], 1)
  {
    var code := GenerateShortCode(draws);
    var reqs := Session(url, draws, now);
    ShortenOnEmpty(url, draws, [], now, None);
    var s := Handle(Empty, reqs[0]);
    assert reqs[1..] == Redirects(code, 2);
    TwoRedirects(s.table, code);
  }
}

=== FILE: shortcode.dfy ===
/** The random short-code generator of the URL shortener (`generateShortCode`).
    The source draws each character with `Math.random`; here the six draws are
    an input, each an index into the alphabet. */
module ShortCode {

  /** The three runs of the generator's alphabet. */
  const Upper: string := "ABCDEFGHIJKLMNOPQRSTUVWXYZ"
  const Lower: string := "abcdefghijklmnopqrstuvwxyz"
  const Digits: string := "0123456789"

  /** The alphabet of the generator: the 62-character string
      "ABCDEFGHIJKLMNOPQRSTUVWXYZabcdefghijklmnopqrstuvwxyz0123456789",
      spelled as its three runs. */
  const Characters: string := Upper + Lower + Digits

  /** The number of characters the generator draws. */
  const CodeLength: nat := 6

  /** A character the generator can produce. */
  predicate IsCodeChar(c: char) {
    ('A' <= c <= 'Z') || ('a' <= c <= 'z') || ('0' <= c <= '9')
  }

  /** A string the generator can produce: six alphabet characters. */
  predicate IsCode(s: string) {
    |s| == CodeLength && forall i :: 0 <= i < |s| ==> IsCodeChar(s[i])
  }

  /** One draw per character, each `Math.floor(Math.random() * 62)`, so in [0, 62). */
  predicate ValidDraws(draws: seq<nat>) {
    |draws| == CodeLength && forall i :: 0 <= i < |draws| ==> draws[i] < |Characters|
  }

  /** The six draws of one call of the generator. */
  type Draws = d: seq<nat> | ValidDraws(d) witness [0, 0, 0, 0, 0, 0]

  /** The position of a code character in the alphabet. */
  function IndexOf(c: char): (i: nat)
    requires IsCodeChar(c)
  {
    if 'A' <= c <= 'Z' then (c as int - 'A' as int)
    else if 'a' <= c <= 'z' then 26 + (c as int - 'a' as int)
    else 52 + (c as int - '0' as int)
  }

  lemma UpperRun()
    ensures forall i :: 0 <= i < |Upper| ==> Upper[i] as int == 'A' as int + i
  {
  }

  lemma LowerRun()
    ensures forall i :: 0 <= i < |Lower| ==> Lower[i] as int == 'a' as int + i
  {
  }

  lemma DigitsRun()
    ensures forall i :: 0 <= i < |Digits| ==> Digits[i] as int == '0' as int + i
  {
  }

  /** Position i of the alphabet holds the code character whose index is i. */
  lemma CharacterAt(i: nat)
    requires i < |Characters|
    ensures IsCodeChar(Characters[i]) && IndexOf(Characters[i]) == i
  {
    if i < 26 {
      UpperRun();
      assert Characters[i] == Upper[i];
    } else if i < 52 {
      LowerRun();
      assert Characters[i] == Lower[i - 26];
    } else {
      DigitsRun();
      assert Characters[i] == Digits[i - 52];
    }
  }

  /** Every code character sits in the alphabet at the position `IndexOf` gives. */
  lemma CharacterOf(c: char)
    requires IsCodeChar(c)
    ensures IndexOf(c) < |Characters| && Characters[IndexOf(c)] == c
  {
    var i := IndexOf(c);
    if 'A' <= c <= 'Z' {
      UpperRun();
      assert Upper[i] as int == c as int;
      assert Characters[i] == Upper[i];
    } else if 'a' <= c <= 'z' {
      LowerRun();
      assert Lower[i - 26] as int == c as int;
      assert Characters[i] == Lower[i - 26];
    } else {
      DigitsRun();
      assert Digits[i - 52] as int == c as int;
      assert Characters[i] == Digits[i - 52];
    }
  }

  /** The alphabet is exactly the code characters, each once, in the order
      upper case, lower case, digits: `IndexOf` inverts indexing into it. */
  lemma CharactersAreCodeChars()
    ensures |Characters| == 62
    ensures forall i :: 0 <= i < |Characters| ==> IsCodeChar(Characters[i]) && IndexOf(Characters[i]) == i
    ensures forall c :: IsCodeChar(c) ==> IndexOf(c) < |Characters| && Characters[IndexOf(c)] == c
  {
    forall i | 0 <= i < |Characters|
      ensures IsCodeChar(Characters[i]) && IndexOf(Characters[i]) == i
    {
      CharacterAt(i);
    }
    forall c | IsCodeChar(c)
      ensures IndexOf(c) < |Characters| && Characters[IndexOf(c)] == c
    {
      CharacterOf(c);
    }
  }

  /** A character of the source's alphabet string is exactly a code character. */
  lemma InAlphabetIffCodeChar(c: char)
    ensures c in Characters <==> IsCodeChar(c)
  {
    CharactersAreCodeChars();
    if IsCodeChar(c) {
      assert Characters[IndexOf(c)] == c;
    }
  }

  /** The loop of the generator: each draw appends `characters.charAt(draw)`. */
  function Spell(draws: seq<nat>): (s: string)
    requires forall i :: 0 <= i < |draws| ==> draws[i] < |Characters|
    ensures |s| == |draws|
    ensures forall i :: 0 <= i < |draws| ==> s[i] == Characters[draws[i]]
  {
    if |draws| == 0 then ""
    else Spell(draws[..|draws| - 1]) + [Characters[draws[|draws| - 1]]]
  }

  /** `generateShortCode`: six characters of the 62-character alphabet,
      character i being the one draw i selects. */
  function GenerateShortCode(draws: Draws): (code: string)
    ensures IsCode(code)
    ensures forall i :: 0 <= i < CodeLength ==> code[i] == Characters[draws[i]] && IndexOf(code[i]) == draws[i]
  {
    CharactersAreCodeChars();
    Spell(draws)
  }

  /** The draws that produce a given code. */
  function Decode(code: string): (draws: seq<nat>)
    requires forall i :: 0 <= i < |code| ==> IsCodeChar(code[i])
  {
    seq(|code|, i requires 0 <= i < |code| => IndexOf(code[i]))
  }

  /** Every draw sequence is recovered from its code: distinct draws give distinct codes. */
  lemma DecodeGenerate(draws: Draws)
    ensures Decode(GenerateShortCode(draws)) == draws
  {
    var code := GenerateShortCode(draws);
    assert forall i :: 0 <= i < |draws| ==> Decode(code)[i] == draws[i];
  }

  /** Every six-character code over the alphabet is generated by some draws:
      the generator ranges over all 62^6 codes. */
  lemma GenerateDecode(code: string)
    requires IsCode(code)
    ensures ValidDraws(Decode(code))
    ensures GenerateShortCode(Decode(code)) == code
  {
    CharactersAreCodeChars();
    var draws := Decode(code);
    assert ValidDraws(draws);
    var g := GenerateShortCode(draws);
    assert forall i :: 0 <= i < |code| ==> g[i] == code[i];
  }

  /** The generator is injective. */
  lemma GenerateInjective(d1: Draws, d2: Draws)
    ensures GenerateShortCode(d1) == GenerateShortCode(d2) <==> d1 == d2
  {
    if GenerateShortCode(d1) == GenerateShortCode(d2) {
      DecodeGenerate(d1);
      DecodeGenerate(d2);
    }
  }
}
